=== FILE: README.md ===
# ChittyChat: vector clocks and the broadcast registry, in Dafny

ChittyChat is a small gRPC chat. Every client keeps a vector clock that maps
participant ids to counters. The client ticks its own entry when it sends a
line. On every message it receives, it merges the carried clock into its own
and then ticks. The server hands out ids from a counter and keeps each
connected client's outbound stream under its id. It relays every request to
every registered client except the request's sender.

A send that fails evicts its target. The eviction is announced with a
departure notice, which is itself broadcast, so broadcasting and removal call
each other.

This project models both parts and proves what they promise:

- `clocks.dfy` (module `Clocks`) holds the clock algebra. `Merge` and `Tick`
  are the client's two updates; `Dominates` is the order on clocks. It proves
  that merge is the least upper bound (commutative, associative, idempotent)
  and that a tick strictly advances the own entry.
- `wire.dfy` (module `Wire`) holds the message shape shared by requests and
  responses, and the decimal rendering of ids used in the notices.
- `client.dfy` (module `ChatClient`) holds the class `Client`, whose fields
  are `id` and `vectorClock`. Its methods are the start-up id assignment, the
  tick, the key-by-key merge loop, sending, receiving, the receive loop and
  the console length check. `ReceiveStep` and `ReceiveAll` specify the
  receive rule, and lemmas prove that it advances the clock.
- `server.dfy` (module `ChatServer`) holds the class `Server`. Its fields are
  `idCounter`, `clients`, the fixed set `broken` of streams whose sends fail,
  and a ghost `log` of every attempted send. Its methods are `AddClient`,
  `RemoveClient`, `BroadcastMessage` (mutually recursive with `RemoveClient`)
  and the session `Chat`.
  - `Chat` is split into `Join`, `Relay` and the final removal.
  - `SendOrRemove` is one visit of the broadcast loop.
  - `Evicted` states which clients a broadcast evicts. If any broken client
    other than the sender is reached, the departure cascade removes every
    broken client, the sender included. Otherwise nobody is removed.

The broadcast loop follows Go's `range` over a map that is deleted from
during the loop. It visits the ids registered when the loop starts, in an
unspecified order (picked with `:|`), and skips ids that were removed in the
meantime. The mutual recursion terminates on the lexicographic measure
(`|clients|`, rank). The rank is 0 for removal, 1 for one visit and 2 for the
broadcast. Every nested broadcast follows a deletion.

The model keeps these details of the code:

- A departure notice carries the departed client's id as its sender id.
  That id is no longer registered, so the notice goes to every remaining
  client.
- The join notice carries sender id 0 and the clock `{id ↦ 0}`. No client is
  registered under 0, so the newcomer receives the notice too.
- A relayed message keeps the request's own id, text and clock. So it is
  never echoed to its sender, and it is sent to every other client.
- Merging a key the local clock lacks copies the incoming counter. It does
  not take a maximum with 0, which matters for negative counters.

The contracts of `BroadcastMessage`, `SendOrRemove`, `RemoveClient`, `Join`,
`Relay` and `Chat` bound the delivery log from both sides. Every client that
should receive a message does. No client receives the same message twice in
one broadcast, except in the one case named under "Left out". Nothing is
sent other than the message and the departure notices of the evicted
clients. A session's log splits into a join phase, one round per request and
a departure phase, and each phase is free of repeats on its own. Across
phases, a request may equal a notice, so the log as a whole can hold the same
send twice. After a session's join phase, every send goes only to a client
that survived the join broadcast, so an evicted client is never tried again.

## Model

| member | source | states |
|---|---|---|
| Clocks.Max | client/client.go:110-115 | the result is at least both arguments and equals one of them |
| Clocks.Merge | client/client.go:118-130 | the merged clock's keys are the union of both key sets; keys only present locally keep their counter |
| Clocks.MergeUpperBound | client/client.go:118-130 | the merge dominates the old local clock (no entry decreases) and the incoming clock; every counter comes from one of the two |
| Clocks.MergeLeast | client/client.go:122-129 | any clock that dominates both inputs dominates their merge (least upper bound) |
| Clocks.MergeIdempotent | client/client.go:122-129 | merging a clock into itself changes nothing |
| Clocks.MergeCommutative | client/client.go:122-129 | the merge does not depend on which clock is local |
| Clocks.MergeAssociative | client/client.go:122-129 | merging in stages equals merging at once |
| Clocks.MergeDominated | client/client.go:122-129 | merging a clock the local clock already dominates leaves the local clock unchanged |
| Clocks.MergeEntry | client/client.go:123-128 | one step of the merge loop: the key takes the max of the local and incoming counters, or the incoming counter when it is absent; other keys are unchanged |
| Clocks.MergeOneMore | client/client.go:122-129 | merging one more incoming key equals one more loop step, so the loop adds up to the whole merge |
| Clocks.Tick | client/client.go:105 | the own entry becomes its old value plus one (1 when absent); no other entry changes; the key set gains only the own id |
| Clocks.TickDominates | client/client.go:101-108 | a tick never lowers an entry and always changes the clock |
| Wire.Itoa | server/server.go:89 | the rendering is non-empty, starts with '-' exactly for negatives, and its digits denote the absolute value |
| Wire.ItoaInjective | server/server.go:160 | distinct ids give distinct renderings, so notices for different clients have different texts |
| ChatClient.ReceiveStep | client/client.go:94-95 | handling one message leaves the union of the local, carried and own keys |
| ChatClient.ReceiveAll | client/client.go:86-97 | handling a run of messages never loses a key |
| ChatClient.ReceiveStepAdvances | client/client.go:94-95 | after one receive the clock dominates the old local and the carried clock; the own entry is exactly one above its post-merge value, so strictly above both old values; other entries equal the merge |
| ChatClient.ReceiveEmptyClock | client/client.go:94-95 | a message with an empty clock (a departure notice) still costs exactly one tick |
| ChatClient.ReceiveAllAdvances | client/client.go:86-97 | after n receives the clock dominates the start clock and every carried clock, and the own entry has grown by at least n |
| ChatClient.Client.constructor | client/client.go:37-41 | a new client has id 1 and an empty clock |
| ChatClient.Client.AssignId | client/client.go:65-66 | the id becomes the server-assigned one and the clock gains the entry id ↦ 0 |
| ChatClient.Client.UpdateMyTime | client/client.go:101-108 | the clock becomes its tick and the returned clock is the ticked one |
| ChatClient.Client.MergeVectorClocks | client/client.go:118-130 | the key-by-key loop leaves exactly the merge of the old clock with the incoming one |
| ChatClient.Client.SendMessage | client/client.go:133-141 | the clock is ticked once and the request carries the client's id, the text and the ticked clock |
| ChatClient.Client.Receive | client/client.go:93-95 | the clock becomes merge-then-tick of the old clock with the message's clock |
| ChatClient.Client.ReceiveLoop | client/client.go:85-98 | after the receive loop over a run of messages the clock is the in-order fold of the receive rule |
| ChatClient.Client.SubmitLine | client/client.go:74-80 | a line over 128 characters is not sent and leaves the clock unchanged; otherwise it is sent with the ticked clock |
| ChatServer.IdNotice | server/server.go:136-140 | the first message on a connection carries the assigned id and no clock |
| ChatServer.JoinNotice | server/server.go:87-93 | the join notice carries sender id 0 and the clock holding only the newcomer's entry, at 0 |
| ChatServer.LeaveNotice | server/server.go:158-162 | the departure notice carries the departed client's id as sender and an empty clock |
| ChatServer.Evicted | server/server.go:171-181 | a broadcast evicts nobody or every registered client with a failing stream; it evicts nobody exactly when every registered client other than the sender has a working stream |
| ChatServer.EvictionSparesHealthy | server/server.go:171-181 | a broadcast evicts only clients with failing streams, never one whose stream works |
| ChatServer.EvictedAbsentSender | server/server.go:158-163 | a broadcast from an unregistered id (a departure or a join notice) evicts every broken client |
| ChatServer.RemoveThenEvict | server/server.go:175-178 | removing one broken client and then all remaining broken ones removes exactly the broken clients |
| ChatServer.NoneBrokenNoneEvicted | server/server.go:171-181 | with every registered stream working, the eviction set is empty and a broadcast leaves the registry as it is |
| ChatServer.EvictedAllHealthy | server/server.go:171-181 | once the broken clients are evicted, every registered stream works |
| ChatServer.HealthyLeave | server/server.go:149-163 | removing a client from a registry of working streams removes that client only |
| ChatServer.SessionLeavesHealthy | server/server.go:79-121 | a session that joins under a fresh id and leaves again leaves exactly the clients whose streams work |
| ChatServer.Server.constructor | server/server.go:46-52 | the server starts with counter 0, no clients and no sends |
| ChatServer.Server.AddClient | server/server.go:125-145 | the counter rises by one, the new value is the returned id, it was not registered before, it now maps to the stream and nothing else changes; one direct id notice is sent |
| ChatServer.Server.RemoveClient | server/server.go:149-166 | an absent id changes nothing and sends nothing; a present id is deleted and its departure notice reaches every remaining client; the cascade evicts the broken ones; every send made is the departure notice of a removed client, and none is repeated |
| ChatServer.Server.BroadcastMessage | server/server.go:171-181 | nothing is ever sent to the id the message carries; every other client with a working stream receives it; the clients left are the old ones minus those evicted; every send made is the message or the departure notice of an evicted client; no client is sent the same message twice |
| ChatServer.Server.SendOrRemove | server/server.go:174-179 | the first send is the message to the target; a working target receives it and nothing else changes; a failing target is removed along with every other broken client, and the sends that follow are unrepeated departure notices of the removed clients |
| ChatServer.Server.Join | server/server.go:82-96 | the id notice comes first; the join notice (sender 0, clock {id ↦ 0}) then reaches every client left registered, the newcomer included; every later send is the join notice or the departure notice of an evicted client, and none is repeated |
| ChatServer.Server.Relay | server/server.go:98-118 | the sends split into one round per request, in order; each round sends only that request, sends it to no client twice, and reaches every registered client except its sender; nobody is evicted |
| ChatServer.Server.Chat | server/server.go:79-121 | a session issues a fresh id; the join notice, every request and the departure notice reach every client that remains; afterwards exactly the clients whose streams work are registered; after the id notice the log splits into an unrepeated join phase, one round per request and an unrepeated departure phase of the session's own notice; every send is the join notice, a request, or the departure notice of a removed client; after the join phase every send goes only to a client that survived the join broadcast |

The server's `Valid()` invariant is kept by every server method. It says
that every registered id lies in `1..idCounter`, so a newly issued id was
never registered and ids strictly increase. It also says that no fan-out
send ever went to the message's own sender id.

## Left out

- gRPC, sockets and the stream objects are left out. A stream is an opaque
  handle, and its `Send` succeeds exactly when the stream is not in the fixed
  set `broken`. The ghost `log` records every attempted send and whether it
  succeeded.
- `stream.Recv` is left out. A session's inbound requests are a finite
  sequence given as a parameter, and the client's inbound messages likewise.
  The end of that sequence stands for both end-of-stream and a receive error,
  which the server treats alike.
- Goroutines and `sync.RWMutex` are left out, because concurrency is not
  modelled. Each locked section is atomic and sessions run one after another,
  never interleaved. So the unlocked reads of `clients` in `removeClient` and
  `broadcastMessage` (data races in the source) cannot show up.
- ChatClient.Client.UpdateMyTime returns a snapshot of the clock, while Go
  returns the live map. So a later merge that changes a clock already handed
  to `sendMessage` is not modelled.
- ChatClient.Client.SubmitLine counts characters, while Go's `len` counts
  UTF-8 bytes. A line of 128 or fewer characters that is longer than 128
  bytes is sent in the model but dropped in the source.
- Integers are unbounded, so the `int64` wrap-around of the counters and
  clock entries is not modelled.
- The console scanner loop, all logging, log-file setup, `main`,
  `startServer`, `getServerConnection` and the `log.Fatal` aborts are left
  out. They are plumbing and process exits.
- ChatServer.Server.AddClient ignores the result of the id notice's send, as
  the source does. A failed id notice is recorded in the log but evicts
  nobody.
- ChatServer.Server.BroadcastMessage states that no send is repeated only
  when the message is not the departure notice of a broken registered
  client. When it is, the cascade broadcasts that client's own departure
  notice, which is equal to the message. Then a client can receive the same
  text, sender and clock twice, as in the source, and the log cannot tell
  the two sends apart.
- ChatServer.Server.Relay evicts nobody in the model, which the source does
  not promise. The set of failing streams is fixed and sessions do not
  interleave, so the join broadcast has already evicted every broken client
  before the relay loop starts. In Go a stream can fail later, and the
  broadcast of a request (server.go:117, then 175-178) can then evict its
  target. That eviction path of the relay loop is not modelled.
- The order in which the broadcast loop visits clients is not fixed, as in
  Go. The contracts hold for every order, but the log's order of sends is
  not stated.

=== FILE: client.dfy ===
/**
 * The chat client's clock engine: the client's own id and vector clock,
 * updated by one tick on every send and by a merge followed by one tick on
 * every receive.
 */
module ChatClient {
  import opened Clocks
  import opened Wire

  /** Console lines longer than this many characters are not sent. */
  const MaxLength := 128

  datatype Option<T> = None | Some(value: T)

  /** The client's clock after handling one inbound message: merge it in, then tick. */
  function ReceiveStep(c: Clock, self: int, msg: Message): (r: Clock)
    ensures r.Keys == c.Keys + msg.clock.Keys + {self}
  {
    Tick(Merge(c, msg.clock), self)
  }

  /** The client's clock after handling the inbound messages in order. */
  function ReceiveAll(c: Clock, self: int, inbound: seq<Message>): (r: Clock)
    ensures r.Keys >= c.Keys
    decreases |inbound|
  {
    if inbound == [] then c else ReceiveAll(ReceiveStep(c, self, inbound[0]), self, inbound[1..])
  }

  /**
   * Handling a message leaves the clock above both the old local clock and
   * the carried clock, and the own entry exactly one above its value after
   * the merge (so strictly above both the old and the carried value).
   */
  lemma ReceiveStepAdvances(c: Clock, self: int, msg: Message)
    ensures Dominates(ReceiveStep(c, self, msg), c)
    ensures Dominates(ReceiveStep(c, self, msg), msg.clock)
    ensures ReceiveStep(c, self, msg)[self] == Get(Merge(c, msg.clock), self) + 1
    ensures self in c ==> ReceiveStep(c, self, msg)[self] > c[self]
    ensures self in msg.clock ==> ReceiveStep(c, self, msg)[self] > msg.clock[self]
    ensures forall k :: k in ReceiveStep(c, self, msg) && k != self ==>
      ReceiveStep(c, self, msg)[k] == Merge(c, msg.clock)[k]
  {
    var m := Merge(c, msg.clock);
    MergeUpperBound(c, msg.clock);
    TickDominates(m, self);
    DominatesTrans(Tick(m, self), m, c);
    DominatesTrans(Tick(m, self), m, msg.clock);
  }

  /** A message with an empty clock (such as a departure notice) still costs one tick. */
  lemma ReceiveEmptyClock(c: Clock, self: int, msg: Message)
    requires msg.clock == map[]
    ensures ReceiveStep(c, self, msg) == Tick(c, self)
  {
    MergeDominated(c, msg.clock);
  }

  /**
   * Handling a run of inbound messages never lowers an entry, leaves the
   * clock above every carried clock, and raises the own entry (present
   * since start-up) by at least one per message.
   */
  lemma {:induction false} ReceiveAllAdvances(c: Clock, self: int, inbound: seq<Message>)
    requires self in c
    ensures Dominates(ReceiveAll(c, self, inbound), c)
    ensures forall i :: 0 <= i < |inbound| ==> Dominates(ReceiveAll(c, self, inbound), inbound[i].clock)
    ensures self in ReceiveAll(c, self, inbound)
    ensures ReceiveAll(c, self, inbound)[self] >= c[self] + |inbound|
    decreases |inbound|
  {
    if inbound != [] {
      var next := ReceiveStep(c, self, inbound[0]);
      ReceiveStepAdvances(c, self, inbound[0]);
      ReceiveAllAdvances(next, self, inbound[1..]);
      var r := ReceiveAll(c, self, inbound);
      assert r == ReceiveAll(next, self, inbound[1..]);
      DominatesTrans(r, next, c);
      forall i | 0 <= i < |inbound|
        ensures Dominates(r, inbound[i].clock)
      {
        if i == 0 {
          DominatesTrans(r, next, inbound[0].clock);
        } else {
          assert inbound[i] == inbound[1..][i - 1];
        }
      }
    }
  }

  /** The state a chat client keeps: its id and its vector clock. */
  class Client {
    var id: int
    var vectorClock: Clock

    /** A client before the server has assigned an id. */
    constructor ()
      ensures id == 1 && vectorClock == map[]
    {
      id := 1;
      vectorClock := map[];
    }

    /** Start-up, once the server's first message has named the client's id. */
    method AssignId(serverId: int)
      modifies this
      ensures id == serverId
      ensures vectorClock == old(vectorClock)[serverId := 0]
    {
      id := serverId;
      vectorClock := vectorClock[id := 0];
    }

    /** One tick of the own entry; returns the clock after the tick. */
    method UpdateMyTime() returns (clock: Clock)
      modifies this`vectorClock
      ensures vectorClock == Tick(old(vectorClock), id)
      ensures clock == vectorClock
    {
      vectorClock := vectorClock[id := Get(vectorClock, id) + 1];
      clock := vectorClock;
    }

    /** Merges an incoming clock into the own one, key by key. */
    method MergeVectorClocks(clock: Clock)
      modifies this`vectorClock
      ensures vectorClock == Merge(old(vectorClock), clock)
    {
      var pending := clock.Keys;
      while pending != {}
        invariant pending <= clock.Keys
        invariant vectorClock == Merge(old(vectorClock), Restrict(clock, clock.Keys - pending))
        decreases pending
      {
        NonEmptyHasMember(pending);
        var k :| k in pending;
        MergeOneMore(old(vectorClock), clock, clock.Keys - pending, k);
        assert clock.Keys - pending + {k} == clock.Keys - (pending - {k});
        if k in vectorClock {
          vectorClock := vectorClock[k := Max(vectorClock[k], clock[k])];
        } else {
          vectorClock := vectorClock[k := clock[k]];
        }
        pending := pending - {k};
      }
      assert Restrict(clock, clock.Keys - pending) == clock;
    }

    /** Sends one line: tick, then attach the ticked clock under the own id. */
    method SendMessage(content: string) returns (req: Message)
      modifies this`vectorClock
      ensures vectorClock == Tick(old(vectorClock), id)
      ensures req == Message(id, content, vectorClock)
    {
      var clock := UpdateMyTime();
      req := Message(id, content, clock);
    }

    /** Handles one message read from the stream: merge, then tick. */
    method Receive(msg: Message)
      modifies this`vectorClock
      ensures vectorClock == ReceiveStep(old(vectorClock), id, msg)
    {
      MergeVectorClocks(msg.clock);
      var _ := UpdateMyTime();
    }

    /** The receiving task over the messages the stream delivers, in order. */
    method ReceiveLoop(inbound: seq<Message>)
      modifies this`vectorClock
      ensures vectorClock == ReceiveAll(old(vectorClock), id, inbound)
    {
      for i := 0 to |inbound|
        invariant ReceiveAll(vectorClock, id, inbound[i..]) == ReceiveAll(old(vectorClock), id, inbound)
      {
        assert inbound[i..][0] == inbound[i] && inbound[i..][1..] == inbound[i + 1..];
        Receive(inbound[i]);
      }
    }

    /** One console line: too long and it is dropped, otherwise it is sent. */
    method SubmitLine(input: string) returns (sent: Option<Message>)
      modifies this`vectorClock
      ensures |input| > MaxLength ==> sent == None && vectorClock == old(vectorClock)
      ensures |input| <= MaxLength ==>
        vectorClock == Tick(old(vectorClock), id) && sent == Some(Message(id, input, vectorClock))
    {
      if |input| > MaxLength {
        sent := None;
      } else {
        var req := SendMessage(input);
        sent := Some(req);
      }
    }
  }

  /**
   * Two freshly joined clients 1 and 2; client 1 sends "hi" and client 2
   * receives the relayed message.
   */
  method TwoClientExchange() {
    var alice := new Client();
    alice.AssignId(1);
    var bob := new Client();
    bob.AssignId(2);
    assert alice.vectorClock == map[1 := 0] && bob.vectorClock == map[2 := 0];
    var hi := alice.SendMessage("hi");
    assert hi.clock == map[1 := 1];
    bob.Receive(hi);
    assert bob.vectorClock == map[1 := 1, 2 := 1];
  }
}

=== FILE: clocks.dfy ===
/**
 * Vector clocks as carried by every chat participant: a map from participant
 * id to a counter, with the two operations the client applies to its own
 * clock (merge an incoming clock, tick its own entry).
 */
module Clocks {

  /** A vector clock: participant id to counter. */
  type Clock = map<int, int>

  /** The larger of two counters; ties return the first argument. */
  function Max(x: int, y: int): (r: int)
    ensures r >= x && r >= y
    ensures r == x || r == y
  {
    if x < y then y else x
  }

  /** The entry of `id` in `c`, with Go's zero value for a missing key. */
  function Get(c: Clock, id: int): int
  {
    if id in c then c[id] else 0
  }

  /**
   * The merge rule of the client: every key of `incoming` takes the larger
   * of the local and the incoming counter, or the incoming counter when the
   * key is new; keys only present locally are kept as they are.
   */
  function Merge(local: Clock, incoming: Clock): (r: Clock)
    ensures r.Keys == local.Keys + incoming.Keys
    ensures forall k :: k in local && k !in incoming ==> r[k] == local[k]
  {
    map k | k in local.Keys + incoming.Keys ::
      if k !in incoming then local[k]
      else if k in local then Max(local[k], incoming[k])
      else incoming[k]
  }

  /** One self-increment: the entry of `id` grows by one, a missing entry becomes 1. */
  function Tick(c: Clock, id: int): (r: Clock)
    ensures r.Keys == c.Keys + {id}
    ensures r[id] == Get(c, id) + 1
    ensures forall k :: k in c && k != id ==> r[k] == c[k]
  {
    c[id := Get(c, id) + 1]
  }

  /** `a` has every key of `b`, each with a counter at least as large. */
  ghost predicate Dominates(a: Clock, b: Clock)
  {
    forall k :: k in b ==> k in a && a[k] >= b[k]
  }

  /** The part of `c` whose keys lie in `keys`. */
  function Restrict(c: Clock, keys: set<int>): (r: Clock)
    ensures r.Keys == c.Keys * keys
    ensures forall k :: k in r ==> r[k] == c[k]
  {
    map k | k in c && k in keys :: c[k]
  }

  // ---------------------------------------------------------------------------
  // Properties of Merge

  /** Merge is an upper bound of both clocks, and each counter comes from one of them. */
  lemma MergeUpperBound(local: Clock, incoming: Clock)
    ensures Dominates(Merge(local, incoming), local)
    ensures Dominates(Merge(local, incoming), incoming)
    ensures forall k :: k in Merge(local, incoming) ==>
      (k in local && Merge(local, incoming)[k] == local[k]) ||
      (k in incoming && Merge(local, incoming)[k] == incoming[k])
  {
  }

  /** Merge is the least upper bound: any clock above both is above the merge. */
  lemma MergeLeast(local: Clock, incoming: Clock, upper: Clock)
    requires Dominates(upper, local) && Dominates(upper, incoming)
    ensures Dominates(upper, Merge(local, incoming))
  {
  }

  /** Merging a clock into itself changes nothing. */
  lemma MergeIdempotent(c: Clock)
    ensures Merge(c, c) == c
  {
    forall k | k in c ensures Merge(c, c)[k] == c[k] {}
  }

  /** The order of the two clocks does not matter. */
  lemma MergeCommutative(a: Clock, b: Clock)
    ensures Merge(a, b) == Merge(b, a)
  {
    forall k | k in Merge(a, b) ensures Merge(a, b)[k] == Merge(b, a)[k] {}
  }

  /** Merging in stages gives the same clock as merging all at once. */
  lemma MergeAssociative(a: Clock, b: Clock, c: Clock)
    ensures Merge(Merge(a, b), c) == Merge(a, Merge(b, c))
  {
    forall k | k in Merge(Merge(a, b), c)
      ensures Merge(Merge(a, b), c)[k] == Merge(a, Merge(b, c))[k]
    {}
  }

  /** Merging a clock that the local clock already dominates changes nothing. */
  lemma MergeDominated(local: Clock, incoming: Clock)
    requires Dominates(local, incoming)
    ensures Merge(local, incoming) == local
  {
    forall k | k in incoming.Keys ensures k in local.Keys {
      assert k in incoming;
    }
    assert local.Keys + incoming.Keys == local.Keys;
    forall k | k in local ensures Merge(local, incoming)[k] == local[k] {}
  }

  /**
   * One step of the client's merge loop: the entry `k` takes the larger of
   * its current counter and `v`, or `v` when it is missing.
   */
  function MergeEntry(c: Clock, k: int, v: int): (r: Clock)
    ensures r.Keys == c.Keys + {k}
    ensures forall j :: j in c && j != k ==> r[j] == c[j]
    ensures r[k] == if k in c then Max(c[k], v) else v
  {
    if k in c then c[k := Max(c[k], v)] else c[k := v]
  }

  /** Merging the incoming keys one at a time adds up to the whole merge. */
  lemma MergeOneMore(local: Clock, incoming: Clock, done: set<int>, k: int)
    requires k in incoming && k !in done
    ensures Merge(local, Restrict(incoming, done + {k})) ==
            MergeEntry(Merge(local, Restrict(incoming, done)), k, incoming[k])
  {
  }

  // ---------------------------------------------------------------------------
  // Properties of Tick

  /** A tick never lowers a counter and keeps every key. */
  lemma TickDominates(c: Clock, id: int)
    ensures Dominates(Tick(c, id), c)
    ensures Tick(c, id) != c
  {
  }

  /** A non-empty set of keys has a member to pick next. */
  lemma NonEmptyHasMember(s: set<int>)
    requires s != {}
    ensures exists k :: k in s
  {
    if forall k :: k !in s {
      assert false;
    }
  }

  /** Dominates is transitive. */
  lemma DominatesTrans(a: Clock, b: Clock, c: Clock)
    requires Dominates(a, b) && Dominates(b, c)
    ensures Dominates(a, c)
  {
  }
}

=== FILE: server.dfy ===
/**
 * The chat server's connection registry and fan-out: ids are handed out
 * from a counter, every connected client's outbound stream is kept under
 * its id, and a message is sent to every registered client except the one
 * whose id it carries. A send that fails evicts its target, and the
 * eviction is itself announced by a broadcast, so broadcasting and removal
 * call each other.
 */
module ChatServer {
  import opened Clocks
  import opened Wire

  /** The outbound stream of one connection, known only by a handle. */
  datatype Stream = Stream(handle: int)

  /** One attempted send, with whether the stream accepted it. */
  datatype Delivery =
    | Direct(target: int, msg: Message, ok: bool)  // sent straight to a new connection
    | Fanout(target: int, msg: Message, ok: bool)  // sent by the broadcast loop

  /** The first message on a new connection: it carries the assigned id and no clock. */
  function IdNotice(id: int): (r: Message)
    ensures r.id == id && r.clock == map[]
  {
    Message(id, "This is your id", map[])
  }

  /** The server's join announcement: sender 0, clock holding only the newcomer at 0. */
  function JoinNotice(id: int): (r: Message)
    ensures r.id == 0 && r.clock.Keys == {id} && r.clock[id] == 0
  {
    Message(0, "Client " + Itoa(id) + " joined the chat", map[id := 0])
  }

  /** The departure announcement; it carries the departed client's id as sender. */
  function LeaveNotice(id: int): (r: Message)
    ensures r.id == id && r.clock == map[]
  {
    Message(id, "Client " + Itoa(id) + " left the chat", map[])
  }

  /** The registered ids whose stream fails every send. */
  function BrokenIds(clients: map<int, Stream>, broken: set<Stream>): set<int>
  {
    set k | k in clients && clients[k] in broken
  }

  /**
   * The ids a broadcast from `sender` evicts: once any broken client other
   * than the sender is reached, its departure notice reaches every other
   * broken client (the sender included), so either all broken clients go
   * or none do.
   */
  function Evicted(clients: map<int, Stream>, broken: set<Stream>, sender: int): (r: set<int>)
    ensures r == {} || r == BrokenIds(clients, broken)
    ensures r == {} <==> forall k :: k in clients && k != sender ==> clients[k] !in broken
  {
    var b := BrokenIds(clients, broken);
    if b - {sender} == {} then
      assert forall k :: k in clients && k != sender ==> k !in b - {sender};
      {}
    else
      NonEmptyHasMember(b - {sender});
      b
  }

  /** Every log entry from position `|log0|` on is a fan-out send to one of `targets`, never to the message's own sender. */
  ghost predicate Appended(log0: seq<Delivery>, log1: seq<Delivery>, targets: map<int, Stream>, broken: set<Stream>)
  {
    && |log0| <= |log1|
    && log1[..|log0|] == log0
    && forall i :: |log0| <= i < |log1| ==>
         && log1[i].Fanout?
         && log1[i].target in targets
         && log1[i].target != log1[i].msg.id
         && log1[i].ok == (targets[log1[i].target] !in broken)
  }

  // ---------------------------------------------------------------------------
  // Facts about eviction

  /** An evicted id had a broken stream; a client with a working stream is never evicted. */
  lemma EvictionSparesHealthy(clients: map<int, Stream>, broken: set<Stream>, sender: int)
    ensures forall k :: k in Evicted(clients, broken, sender) ==> k in clients && clients[k] in broken
    ensures forall k :: k in clients && clients[k] !in broken ==> k !in Evicted(clients, broken, sender)
  {
  }

  /** A broadcast from an id that is not registered evicts every broken client. */
  lemma EvictedAbsentSender(clients: map<int, Stream>, broken: set<Stream>, sender: int)
    requires sender !in clients
    ensures Evicted(clients, broken, sender) == BrokenIds(clients, broken)
  {
    var b := BrokenIds(clients, broken);
    assert b - {sender} == b;
  }

  /** Removing one broken client and then all remaining broken ones removes exactly the broken ones. */
  lemma RemoveThenEvict(clients: map<int, Stream>, broken: set<Stream>, id: int)
    requires id in clients && clients[id] in broken
    ensures (clients - {id}) - BrokenIds(clients - {id}, broken) == clients - BrokenIds(clients, broken)
  {
    var lhs := (clients - {id}) - BrokenIds(clients - {id}, broken);
    var rhs := clients - BrokenIds(clients, broken);
    assert lhs.Keys == rhs.Keys;
  }

  /** Every registered stream works. */
  ghost predicate Healthy(clients: map<int, Stream>, broken: set<Stream>)
  {
    forall k :: k in clients ==> clients[k] !in broken
  }

  /** With no broken client registered, a broadcast evicts nobody. */
  lemma NoneBrokenNoneEvicted(clients: map<int, Stream>, broken: set<Stream>, sender: int)
    requires Healthy(clients, broken)
    ensures Evicted(clients, broken, sender) == {}
    ensures clients - Evicted(clients, broken, sender) == clients
  {
    assert forall k :: k !in BrokenIds(clients, broken);
    assert BrokenIds(clients, broken) - {sender} == {};
    assert (clients - {}).Keys == clients.Keys;
  }

  /** After all broken clients are gone, every registered stream works. */
  lemma EvictedAllHealthy(clients: map<int, Stream>, broken: set<Stream>)
    ensures Healthy(clients - BrokenIds(clients, broken), broken)
  {
  }

  /** Removing a client from a registry of working streams removes that client only. */
  lemma HealthyLeave(clients: map<int, Stream>, broken: set<Stream>, id: int)
    requires Healthy(clients, broken)
    ensures (clients - {id}) - BrokenIds(clients - {id}, broken) == clients - {id}
    ensures id !in clients ==> clients - {id} == clients
  {
    assert forall k :: k !in BrokenIds(clients - {id}, broken);
    assert ((clients - {id}) - {}).Keys == (clients - {id}).Keys;
    assert (clients - {id}).Keys == clients.Keys - {id};
  }

  /**
   * A session that joins with a fresh id and leaves again leaves behind
   * exactly the clients that had a working stream.
   */
  lemma SessionLeavesHealthy(before: map<int, Stream>, broken: set<Stream>, id: int, stream: Stream)
    requires id !in before
    ensures (before[id := stream] - BrokenIds(before[id := stream], broken)) - {id} ==
            before - BrokenIds(before, broken)
  {
    var joined := before[id := stream];
    var lhs := (joined - BrokenIds(joined, broken)) - {id};
    var rhs := before - BrokenIds(before, broken);
    assert lhs.Keys == rhs.Keys;
  }

  // ---------------------------------------------------------------------------
  // Facts about the registry map and the delivery log

  /** Deleting a present key shrinks the map by one. */
  lemma RemoveShrinks(clients: map<int, Stream>, id: int)
    requires id in clients
    ensures |clients - {id}| < |clients|
  {
    assert (clients - {id}).Keys == clients.Keys - {id};
  }

  /** Deleting keys never grows the map. */
  lemma MinusNoLarger(clients: map<int, Stream>, gone: set<int>)
    ensures |clients - gone| <= |clients|
  {
    assert (clients - gone).Keys <= clients.Keys;
    SubsetCard((clients - gone).Keys, clients.Keys);
  }

  /** A subset has no more elements than its superset. */
  lemma SubsetCard(a: set<int>, b: set<int>)
    requires a <= b
    ensures |a| <= |b|
  {
    assert b == a + (b - a);
  }

  /** Client `k` was sent `m` successfully at or after position `from` of the log. */
  ghost predicate Heard(log: seq<Delivery>, from: nat, k: int, m: Message)
  {
    exists i :: from <= i < |log| && log[i] == Fanout(k, m, true)
  }

  /** Every client of `clients` other than the message's sender was sent `m` successfully from position `from` on. */
  ghost predicate ReachedAll(log: seq<Delivery>, from: nat, clients: map<int, Stream>, m: Message)
  {
    forall k :: k in clients && k != m.id ==> Heard(log, from, k, m)
  }

  /** `m` is the departure notice of one of the ids in `gone`. */
  ghost predicate IsDeparture(m: Message, gone: set<int>)
  {
    m.id in gone && m == LeaveNotice(m.id)
  }

  /** From position `from` on, every send is `msg` to one of `targets` or the departure notice of one of `gone`. */
  ghost predicate Classified(log: seq<Delivery>, from: nat, msg: Message, targets: set<int>, gone: set<int>)
  {
    forall i :: from <= i < |log| ==>
      (log[i].msg == msg && log[i].target in targets) || IsDeparture(log[i].msg, gone)
  }

  /** From position `from` on, no client was sent the same message twice. */
  ghost predicate NoRepeats(log: seq<Delivery>, from: nat)
  {
    forall i, j :: from <= i < j < |log| ==> log[i].target != log[j].target || log[i].msg != log[j].msg
  }

  /**
   * One visit of the broadcast loop appends a send of `msg` to `id` followed
   * by departure notices of the ids `gone2` evicted during the visit.
   */
  lemma BroadcastStepClassified(before: seq<Delivery>, log: seq<Delivery>, from: nat, msg: Message, id: int,
                                targets: set<int>, gone: set<int>, gone2: set<int>,
                                targets': set<int>, gone': set<int>)
    requires from <= |before| < |log| && log[..|before|] == before
    requires log[|before|].target == id && log[|before|].msg == msg
    requires forall i :: |before| < i < |log| ==> IsDeparture(log[i].msg, gone2)
    requires Classified(before, from, msg, targets, gone)
    requires targets + {id} <= targets' && gone + gone2 <= gone'
    ensures Classified(log, from, msg, targets', gone')
  {
    forall i | from <= i < |before| ensures log[i] == before[i] {
      assert log[i] == log[..|before|][i];
    }
  }

  /**
   * The visit's own sends repeat nothing earlier: the target `id` was not
   * visited before, the evicted ids are new, and `msg` is not a departure
   * notice of an evicted id.
   */
  lemma BroadcastStepNoRepeats(before: seq<Delivery>, log: seq<Delivery>, from: nat, msg: Message, id: int,
                               targets: set<int>, gone: set<int>, gone2: set<int>)
    requires from <= |before| < |log| && log[..|before|] == before
    requires log[|before|].target == id && log[|before|].msg == msg
    requires forall i :: |before| < i < |log| ==> IsDeparture(log[i].msg, gone2)
    requires Classified(before, from, msg, targets, gone)
    requires id !in targets && gone !! gone2 && !IsDeparture(msg, gone + gone2)
    requires NoRepeats(before, from) && NoRepeats(log, |before| + 1)
    ensures NoRepeats(log, from)
  {
    forall i | from <= i < |before| ensures log[i] == before[i] {
      assert log[i] == log[..|before|][i];
    }
    forall i, j | from <= i < j < |log|
      ensures log[i].target != log[j].target || log[i].msg != log[j].msg
    {
      if j < |before| {
        assert before[i].target != before[j].target || before[i].msg != before[j].msg;
      } else if i == |before| {
        assert IsDeparture(log[j].msg, gone2);
      } else if i < |before| {
        EarlierLaterDiffer(before[i], log[j], msg, id, targets, gone, gone2);
      }
    }
  }

  /** A send from before the visit and one made during it are not the same send. */
  lemma EarlierLaterDiffer(e: Delivery, f: Delivery, msg: Message, id: int,
                           targets: set<int>, gone: set<int>, gone2: set<int>)
    requires (e.msg == msg && e.target in targets) || IsDeparture(e.msg, gone)
    requires (f.msg == msg && f.target == id) || IsDeparture(f.msg, gone2)
    requires id !in targets && gone !! gone2 && !IsDeparture(msg, gone + gone2)
    ensures e.target != f.target || e.msg != f.msg
  {
  }

  /**
   * The log positions `lo` up to `hi` are one round of `m`: every send there
   * is `m`, no client is sent it twice, and every client of `clients` other
   * than the sender is sent it successfully.
   */
  ghost predicate Round(log: seq<Delivery>, lo: nat, hi: nat, clients: map<int, Stream>, m: Message)
  {
    && lo <= hi <= |log|
    && (forall i :: lo <= i < hi ==> log[i].msg == m)
    && (forall i, j :: lo <= i < j < hi ==> log[i].target != log[j].target)
    && (forall k :: k in clients && k != m.id ==> exists i :: lo <= i < hi && log[i] == Fanout(k, m, true))
  }

  /** A log that only grows keeps every round it recorded. */
  lemma RoundKeeps(log1: seq<Delivery>, log2: seq<Delivery>, lo: nat, hi: nat, clients: map<int, Stream>, m: Message)
    requires |log1| <= |log2| && log2[..|log1|] == log1
    requires Round(log1, lo, hi, clients, m)
    ensures Round(log2, lo, hi, clients, m)
  {
    forall i | 0 <= i < |log1| ensures log2[i] == log1[i] {
      assert log2[i] == log2[..|log1|][i];
    }
  }

  /** A log that only grows keeps every round of a run of messages. */
  lemma RoundsKeep(log1: seq<Delivery>, log2: seq<Delivery>, marks: seq<nat>, clients: map<int, Stream>, ms: seq<Message>)
    requires |log1| <= |log2| && log2[..|log1|] == log1
    requires |marks| == |ms| + 1
    requires forall r :: 0 <= r < |ms| ==> Round(log1, marks[r], marks[r + 1], clients, ms[r])
    ensures forall r :: 0 <= r < |ms| ==> Round(log2, marks[r], marks[r + 1], clients, ms[r])
  {
    forall r | 0 <= r < |ms| ensures Round(log2, marks[r], marks[r + 1], clients, ms[r]) {
      RoundKeeps(log1, log2, marks[r], marks[r + 1], clients, ms[r]);
    }
  }

  /** A position inside a run of rounds carries one of the run's messages. */
  lemma {:induction false} RoundsCover(log: seq<Delivery>, marks: seq<nat>, registry: map<int, Stream>,
                                       ms: seq<Message>, i: nat)
    requires |marks| == |ms| + 1
    requires forall r :: 0 <= r < |ms| ==> Round(log, marks[r], marks[r + 1], registry, ms[r])
    requires marks[0] <= i < marks[|ms|]
    ensures i < |log| && log[i].msg in ms
    decreases |ms|
  {
    assert Round(log, marks[0], marks[1], registry, ms[0]);
    if i >= marks[1] {
      forall r | 0 <= r < |ms| - 1
        ensures Round(log, marks[1..][r], marks[1..][r + 1], registry, ms[1..][r])
      {
        assert Round(log, marks[r + 1], marks[r + 2], registry, ms[r + 1]);
      }
      RoundsCover(log, marks[1..], registry, ms[1..], i);
    }
  }

  /**
   * A session's sends after the id notice: the join phase up to `marks[0]`,
   * one round per request, then the departure phase. Each is the join
   * notice, one of the requests, or a departure notice of an id in `gone`.
   */
  lemma SessionSends(log: seq<Delivery>, from: nat, marks: seq<nat>, registry: map<int, Stream>,
                     ms: seq<Message>, join: Message, gone: set<int>)
    requires |marks| == |ms| + 1 && from <= marks[0] <= marks[|ms|] <= |log|
    requires forall i :: from <= i < marks[0] ==> log[i].msg == join || IsDeparture(log[i].msg, gone)
    requires forall r :: 0 <= r < |ms| ==> Round(log, marks[r], marks[r + 1], registry, ms[r])
    requires forall i :: marks[|ms|] <= i < |log| ==> IsDeparture(log[i].msg, gone)
    ensures forall i :: from <= i < |log| ==>
      log[i].msg == join || log[i].msg in ms || IsDeparture(log[i].msg, gone)
  {
    forall i | from <= i < |log|
      ensures log[i].msg == join || log[i].msg in ms || IsDeparture(log[i].msg, gone)
    {
      if marks[0] <= i < marks[|ms|] {
        RoundsCover(log, marks, registry, ms, i);
      }
    }
  }

  /** The sends of the join phase stay as they are while the log grows. */
  lemma JoinPhaseKeeps(joinLog: seq<Delivery>, relayLog: seq<Delivery>, log: seq<Delivery>, from: nat,
                       join: Message, gone: set<int>, gone': set<int>)
    requires |joinLog| <= |relayLog| <= |log|
    requires relayLog[..|joinLog|] == joinLog && log[..|relayLog|] == relayLog
    requires forall i :: from <= i < |joinLog| ==> joinLog[i].msg == join || IsDeparture(joinLog[i].msg, gone)
    requires NoRepeats(joinLog, from)
    requires gone <= gone'
    ensures log[..|joinLog|] == joinLog
    ensures forall i :: from <= i < |joinLog| ==> log[i].msg == join || IsDeparture(log[i].msg, gone')
    ensures NoRepeats(log[..|joinLog|], from)
  {
    assert log[..|joinLog|] == relayLog[..|joinLog|];
    forall i | from <= i < |joinLog| ensures log[i] == joinLog[i] {
      assert log[i] == log[..|joinLog|][i];
    }
  }

  /** The departure phase of a session in a registry of working streams announces only the session's own id. */
  lemma LeavePhase(relayLog: seq<Delivery>, log: seq<Delivery>, joined: map<int, Stream>,
                   active: map<int, Stream>, clients: map<int, Stream>, id: int)
    requires |relayLog| <= |log|
    requires forall i :: |relayLog| <= i < |log| ==> IsDeparture(log[i].msg, active.Keys - clients.Keys)
    requires clients == active - {id}
    requires forall k :: k in active ==> k in joined
    requires id in joined
    ensures forall i :: |relayLog| <= i < |log| ==>
      log[i].msg == LeaveNotice(id) && IsDeparture(log[i].msg, joined.Keys - clients.Keys)
  {
    forall i | |relayLog| <= i < |log|
      ensures log[i].msg == LeaveNotice(id) && IsDeparture(log[i].msg, joined.Keys - clients.Keys)
    {
      assert IsDeparture(log[i].msg, active.Keys - clients.Keys);
    }
  }

  /** A broadcast over a registry of working streams is exactly one round of its message. */
  lemma HealthyBroadcastRound(before: seq<Delivery>, log: seq<Delivery>, clients: map<int, Stream>,
                              broken: set<Stream>, msg: Message)
    requires Healthy(clients, broken)
    requires |before| <= |log|
    requires forall i :: |before| <= i < |log| ==>
      log[i].msg == msg || IsDeparture(log[i].msg, Evicted(clients, broken, msg.id))
    requires !IsDeparture(msg, BrokenIds(clients, broken)) ==> NoRepeats(log, |before|)
    requires forall k :: k in clients && k != msg.id && clients[k] !in broken ==> Heard(log, |before|, k, msg)
    ensures Round(log, |before|, |log|, clients, msg)
  {
    NoneBrokenNoneEvicted(clients, broken, msg.id);
    assert msg.id !in BrokenIds(clients, broken);
  }

  /** A log that only grows keeps every broadcast it completed. */
  lemma ReachedAllKeeps(log1: seq<Delivery>, log2: seq<Delivery>, from: nat, clients: map<int, Stream>)
    requires |log1| <= |log2| && log2[..|log1|] == log1
    ensures forall m :: ReachedAll(log1, from, clients, m) ==> ReachedAll(log2, from, clients, m)
  {
    HeardKeeps(log1, log2, from);
  }

  /** A broadcast completed at or after `later` was completed at or after any earlier position. */
  lemma ReachedAllWiden(log: seq<Delivery>, from: nat, later: nat, clients: map<int, Stream>)
    requires from <= later
    ensures forall m :: ReachedAll(log, later, clients, m) ==> ReachedAll(log, from, clients, m)
  {
    HeardWiden(log, from, later);
  }

  /** A broadcast that reached a registry reached every part of it. */
  lemma ReachedAllShrink(log: seq<Delivery>, from: nat, big: map<int, Stream>, small: map<int, Stream>)
    requires small.Keys <= big.Keys
    ensures forall m :: ReachedAll(log, from, big, m) ==> ReachedAll(log, from, small, m)
  {
  }

  /** A log that only grows keeps every send it recorded. */
  lemma HeardKeeps(log1: seq<Delivery>, log2: seq<Delivery>, from: nat)
    requires |log1| <= |log2| && log2[..|log1|] == log1
    ensures forall k, m :: Heard(log1, from, k, m) ==> Heard(log2, from, k, m)
  {
    forall k, m | Heard(log1, from, k, m) ensures Heard(log2, from, k, m) {
      var i :| from <= i < |log1| && log1[i] == Fanout(k, m, true);
      assert log2[i] == log2[..|log1|][i];
    }
  }

  /** A send recorded at or after `later` is recorded at or after any earlier position. */
  lemma HeardWiden(log: seq<Delivery>, from: nat, later: nat)
    requires from <= later
    ensures forall k, m :: Heard(log, later, k, m) ==> Heard(log, from, k, m)
  {
  }

  /** Two stretches of fan-out sends, the second to a sub-registry of the first, make one. */
  lemma AppendedTrans(log0: seq<Delivery>, log1: seq<Delivery>, log2: seq<Delivery>,
                      t1: map<int, Stream>, t2: map<int, Stream>, broken: set<Stream>)
    requires Appended(log0, log1, t1, broken) && Appended(log1, log2, t2, broken)
    requires forall k :: k in t2 ==> k in t1 && t1[k] == t2[k]
    ensures Appended(log0, log2, t1, broken)
  {
    assert log2[..|log0|] == log1[..|log1|][..|log0|];
    forall i | |log0| <= i < |log2|
      ensures log2[i].Fanout? && log2[i].target in t1 && log2[i].target != log2[i].msg.id
      ensures log2[i].ok == (t1[log2[i].target] !in broken)
    {
      if i < |log1| {
        assert log2[i] == log2[..|log1|][i];
      }
    }
  }

  // ---------------------------------------------------------------------------
  // The broadcast loop's invariant

  /**
   * Part way through a broadcast of `msg` that started from the registry
   * `start` and the log `log0`, with the ids `pending` still to visit:
   * either no failed send was met yet and the registry is untouched, or one
   * was (`culprit`) and every broken client is gone. Every visited working
   * client was sent `msg`, every remaining client heard each departure, and
   * the new sends are `msg` to visited ids or departure notices of removed
   * ids, none repeated unless `msg` is itself one of those notices.
   */
  ghost predicate Sweep(log0: seq<Delivery>, log: seq<Delivery>, start: map<int, Stream>, clients: map<int, Stream>,
                        pending: set<int>, failed: bool, culprit: int, msg: Message, broken: set<Stream>)
  {
    && SweepRegistry(start, clients, pending, failed, culprit, msg, broken)
    && SweepHeard(log0, log, start, clients, pending, msg, broken)
    && SweepSends(log0, log, start, clients, pending, msg, broken)
  }

  /** The registry part of the broadcast invariant. */
  ghost predicate SweepRegistry(start: map<int, Stream>, clients: map<int, Stream>, pending: set<int>,
                                failed: bool, culprit: int, msg: Message, broken: set<Stream>)
  {
    && pending <= start.Keys
    && (!failed ==> clients == start)
    && (!failed ==> forall k :: k in start && k !in pending && k != msg.id ==> start[k] !in broken)
    && (failed ==> clients == start - BrokenIds(start, broken) && culprit in BrokenIds(start, broken) && culprit != msg.id)
  }

  /** The successful sends the broadcast has made so far. */
  ghost predicate SweepHeard(log0: seq<Delivery>, log: seq<Delivery>, start: map<int, Stream>, clients: map<int, Stream>,
                             pending: set<int>, msg: Message, broken: set<Stream>)
  {
    && (forall k :: k in start && k !in pending && k != msg.id && start[k] !in broken ==> Heard(log, |log0|, k, msg))
    && (forall j, k :: j in start && j !in clients && k in clients ==> Heard(log, |log0|, k, LeaveNotice(j)))
  }

  /** What the broadcast has sent so far, and that nothing was sent twice. */
  ghost predicate SweepSends(log0: seq<Delivery>, log: seq<Delivery>, start: map<int, Stream>, clients: map<int, Stream>,
                             pending: set<int>, msg: Message, broken: set<Stream>)
  {
    && Appended(log0, log, start, broken)
    && Classified(log, |log0|, msg, start.Keys - pending, start.Keys - clients.Keys)
    && (!IsDeparture(msg, BrokenIds(start, broken)) ==> NoRepeats(log, |log0|))
  }

  /** Before the first visit nothing is sent and nothing removed. */
  lemma SweepInit(log: seq<Delivery>, start: map<int, Stream>, msg: Message, broken: set<Stream>)
    ensures Sweep(log, log, start, start, start.Keys, false, msg.id, msg, broken)
  {
    assert log[..|log|] == log;
  }

  /** A visit to a registered id other than the sender keeps the invariant. */
  lemma SweepStep(log0: seq<Delivery>, before: seq<Delivery>, log: seq<Delivery>, start: map<int, Stream>,
                  registered: map<int, Stream>, clients: map<int, Stream>, pending: set<int>, id: int,
                  failed: bool, culprit: int, msg: Message, broken: set<Stream>)
    requires Sweep(log0, before, start, registered, pending, failed, culprit, msg, broken)
    requires id in pending && id in registered && id != msg.id
    requires registered[id] !in broken ==> clients == registered && log == before + [Fanout(id, msg, true)]
    requires registered[id] in broken ==> clients == registered - BrokenIds(registered, broken)
    requires Appended(before, log, registered, broken)
    requires forall j, k :: j in registered && j !in clients && k in clients ==>
      Heard(log, |before|, k, LeaveNotice(j))
    requires |log| > |before| && log[|before|] == Fanout(id, msg, registered[id] !in broken)
    requires forall i :: |before| < i < |log| ==> IsDeparture(log[i].msg, registered.Keys - clients.Keys)
    requires NoRepeats(log, |before| + 1)
    ensures Sweep(log0, log, start, clients, pending - {id}, failed || registered[id] in broken,
                  if registered[id] in broken then id else culprit, msg, broken)
  {
    SweepStepRegistry(start, registered, clients, pending, id, failed, culprit, msg, broken);
    SweepStepHeard(log0, before, log, start, registered, clients, pending, id, msg, broken);
    SweepStepSends(log0, before, log, start, registered, clients, pending, id, msg, broken);
  }

  /** One sweep step keeps the registry part of the invariant: a broken target evicts every broken client. */
  lemma SweepStepRegistry(start: map<int, Stream>, registered: map<int, Stream>, clients: map<int, Stream>,
                          pending: set<int>, id: int, failed: bool, culprit: int, msg: Message, broken: set<Stream>)
    requires SweepRegistry(start, registered, pending, failed, culprit, msg, broken)
    requires id in pending && id in registered && id != msg.id
    requires registered[id] !in broken ==> clients == registered
    requires registered[id] in broken ==> clients == registered - BrokenIds(registered, broken)
    ensures SweepRegistry(start, clients, pending - {id}, failed || registered[id] in broken,
                          if registered[id] in broken then id else culprit, msg, broken)
    ensures forall k :: k in registered ==> k in start && registered[k] == start[k]
    ensures forall k :: k in clients ==> k in registered && clients[k] == registered[k]
    ensures forall k :: k in start && k !in clients ==> k in BrokenIds(start, broken)
  {
  }

  /** One sweep step keeps the delivery part of the invariant: a working target has now heard the message. */
  lemma SweepStepHeard(log0: seq<Delivery>, before: seq<Delivery>, log: seq<Delivery>, start: map<int, Stream>,
                       registered: map<int, Stream>, clients: map<int, Stream>, pending: set<int>, id: int,
                       msg: Message, broken: set<Stream>)
    requires SweepHeard(log0, before, start, registered, pending, msg, broken)
    requires |log0| <= |before| <= |log| && log[..|before|] == before
    requires forall k :: k in registered ==> k in start && registered[k] == start[k]
    requires forall k :: k in clients ==> k in registered
    requires id in registered && id != msg.id
    requires registered[id] !in broken ==> clients == registered && log == before + [Fanout(id, msg, true)]
    requires forall j, k :: j in registered && j !in clients && k in clients ==>
      Heard(log, |before|, k, LeaveNotice(j))
    ensures SweepHeard(log0, log, start, clients, pending - {id}, msg, broken)
  {
    HeardKeeps(before, log, |log0|);
    HeardWiden(log, |log0|, |before|);
    if registered[id] !in broken {
      assert log[|before|] == Fanout(id, msg, true);
    }
  }

  /** One sweep step keeps the classification part of the invariant: each new send is the message or a departure notice. */
  lemma SweepStepSends(log0: seq<Delivery>, before: seq<Delivery>, log: seq<Delivery>, start: map<int, Stream>,
                       registered: map<int, Stream>, clients: map<int, Stream>, pending: set<int>, id: int,
                       msg: Message, broken: set<Stream>)
    requires SweepSends(log0, before, start, registered, pending, msg, broken)
    requires Appended(before, log, registered, broken)
    requires forall k :: k in registered ==> k in start && registered[k] == start[k]
    requires forall k :: k in clients ==> k in registered
    requires forall k :: k in start && k !in clients ==> k in BrokenIds(start, broken)
    requires id in pending && id in registered
    requires |log| > |before| && log[|before|].target == id && log[|before|].msg == msg
    requires forall i :: |before| < i < |log| ==> IsDeparture(log[i].msg, registered.Keys - clients.Keys)
    requires NoRepeats(log, |before| + 1)
    ensures SweepSends(log0, log, start, clients, pending - {id}, msg, broken)
  {
    AppendedTrans(log0, before, log, start, registered, broken);
    var visited, gone, gone2 := start.Keys - pending, start.Keys - registered.Keys, registered.Keys - clients.Keys;
    VisitedGrows(start.Keys, pending, id);
    GoneSplit(start, registered, clients, broken);
    BroadcastStepClassified(before, log, |log0|, msg, id, visited, gone, gone2,
                            start.Keys - (pending - {id}), start.Keys - clients.Keys);
    if !IsDeparture(msg, BrokenIds(start, broken)) {
      BroadcastStepNoRepeats(before, log, |log0|, msg, id, visited, gone, gone2);
    }
  }

  /** Visiting a pending id moves it from the pending ids to the visited ones. */
  lemma VisitedGrows(keys: set<int>, pending: set<int>, id: int)
    requires id in pending && id in keys
    ensures (keys - pending) + {id} <= keys - (pending - {id})
    ensures id !in keys - pending
  {
  }

  /** The ids removed before a visit and those removed during it are disjoint, and all were broken. */
  lemma GoneSplit(start: map<int, Stream>, registered: map<int, Stream>, clients: map<int, Stream>, broken: set<Stream>)
    requires forall k :: k in registered ==> k in start
    requires forall k :: k in clients ==> k in registered
    requires forall k :: k in start && k !in clients ==> k in BrokenIds(start, broken)
    ensures (start.Keys - registered.Keys) + (registered.Keys - clients.Keys) <= start.Keys - clients.Keys
    ensures (start.Keys - registered.Keys) !! (registered.Keys - clients.Keys)
    ensures (start.Keys - registered.Keys) + (registered.Keys - clients.Keys) <= BrokenIds(start, broken)
  {
    forall k | k in (start.Keys - registered.Keys) + (registered.Keys - clients.Keys)
      ensures k in start.Keys - clients.Keys && k in BrokenIds(start, broken)
    {
      if k in registered.Keys - clients.Keys {
        assert k in registered;
      }
    }
  }

  /** Skipping the sender, or an id removed meanwhile, keeps the invariant. */
  lemma SweepSkip(log0: seq<Delivery>, log: seq<Delivery>, start: map<int, Stream>, clients: map<int, Stream>,
                  pending: set<int>, id: int, failed: bool, culprit: int, msg: Message, broken: set<Stream>)
    requires Sweep(log0, log, start, clients, pending, failed, culprit, msg, broken)
    requires id in pending && (id !in clients || id == msg.id)
    ensures Sweep(log0, log, start, clients, pending - {id}, failed, culprit, msg, broken)
  {
  }

  /** Once every id is visited, the broadcast has done exactly what its contract says. */
  lemma SweepDone(log0: seq<Delivery>, log: seq<Delivery>, start: map<int, Stream>, clients: map<int, Stream>,
                  failed: bool, culprit: int, msg: Message, broken: set<Stream>)
    requires Sweep(log0, log, start, clients, {}, failed, culprit, msg, broken)
    ensures clients == start - Evicted(start, broken, msg.id)
    ensures forall i :: |log0| <= i < |log| ==>
      log[i].msg == msg || IsDeparture(log[i].msg, Evicted(start, broken, msg.id))
  {
    var bad := BrokenIds(start, broken);
    if failed {
      assert culprit in bad - {msg.id};
    } else {
      assert forall k :: k !in bad - {msg.id};
      assert bad - {msg.id} == {};
      assert start - {} == start;
    }
    assert start.Keys - clients.Keys <= Evicted(start, broken, msg.id);
  }

  /** The server: the id counter, the registry of live streams, and a record of every send. */
  class Server {
    var idCounter: int
    var clients: map<int, Stream>
    /** The streams whose sends fail (their connection is gone). */
    const broken: set<Stream>
    /** Every send attempted so far, in order. */
    ghost var log: seq<Delivery>

    /** Ids are positive and issued from the counter; no fan-out send went to the message's own sender. */
    ghost predicate Valid()
      reads this
    {
      && idCounter >= 0
      && (forall k :: k in clients ==> 1 <= k <= idCounter)
      && (forall i :: 0 <= i < |log| && log[i].Fanout? ==> log[i].target != log[i].msg.id)
    }

    /** A server that has not accepted any connection yet. */
    constructor (broken: set<Stream>)
      ensures Valid()
      ensures idCounter == 0 && clients == map[] && log == []
      ensures this.broken == broken
    {
      idCounter := 0;
      clients := map[];
      this.broken := broken;
      log := [];
    }

    /** Registers a new connection under the next id and tells it its id. */
    method AddClient(stream: Stream) returns (id: int)
      requires Valid()
      modifies this
      ensures Valid()
      ensures idCounter == old(idCounter) + 1 && id == idCounter
      ensures id !in old(clients)
      ensures clients == old(clients)[id := stream]
      ensures log == old(log) + [Direct(id, IdNotice(id), stream !in broken)]
    {
      idCounter := idCounter + 1;
      id := idCounter;
      clients := clients[id := stream];
      log := log + [Direct(id, IdNotice(id), stream !in broken)];
    }

    /**
     * One connection's session: register it, announce the newcomer to every
     * registered client (the newcomer included, as the notice comes from id
     * 0), relay every request the stream delivers under the request's own id,
     * and remove the client once the stream ends.
     */
    method Chat(stream: Stream, requests: seq<Message>) returns (id: int, ghost marks: seq<nat>)
      requires Valid()
      modifies this
      ensures Valid()
      ensures idCounter == old(idCounter) + 1 && id == idCounter && id !in old(clients)
      ensures clients == old(clients) - BrokenIds(old(clients), broken)
      ensures |log| > |old(log)| && log[|old(log)|] == Direct(id, IdNotice(id), stream !in broken)
      ensures Appended(old(log) + [log[|old(log)|]], log, old(clients)[id := stream], broken)
      ensures stream !in broken ==> Heard(log, |old(log)|, id, JoinNotice(id))
      ensures ReachedAll(log, |old(log)|, clients, JoinNotice(id))
      ensures forall i :: 0 <= i < |requests| ==> ReachedAll(log, |old(log)|, clients, requests[i])
      ensures ReachedAll(log, |old(log)|, clients, LeaveNotice(id))
      ensures forall j :: j in old(clients) && j !in clients ==>
        ReachedAll(log, |old(log)|, clients, LeaveNotice(j))
      ensures |marks| == |requests| + 1 && |old(log)| < marks[0] <= marks[|requests|] <= |log|
      ensures forall i :: |old(log)| < i < marks[0] ==>
        log[i].msg == JoinNotice(id) || IsDeparture(log[i].msg, old(clients)[id := stream].Keys - clients.Keys)
      ensures NoRepeats(log[..marks[0]], |old(log)| + 1)
      ensures Appended(log[..marks[0]], log, old(clients)[id := stream] - BrokenIds(old(clients)[id := stream], broken), broken)
      ensures forall r :: 0 <= r < |requests| ==>
        Round(log, marks[r], marks[r + 1], old(clients)[id := stream] - BrokenIds(old(clients)[id := stream], broken), requests[r])
      ensures forall i :: marks[|requests|] <= i < |log| ==> log[i].msg == LeaveNotice(id)
      ensures NoRepeats(log, marks[|requests|])
      ensures forall i :: |old(log)| < i < |log| ==>
        log[i].msg == JoinNotice(id) || log[i].msg in requests ||
        IsDeparture(log[i].msg, old(clients)[id := stream].Keys - clients.Keys)
    {
      id := Join(stream);
      ghost var joined := old(clients)[id := stream];
      ghost var registered := old(log) + [log[|old(log)|]];
      ghost var active, afterJoin := clients, log;
      EvictedAllHealthy(joined, broken);
      marks := Relay(requests);
      ghost var afterRelay := log;
      AppendedTrans(registered, afterJoin, log, joined, active, broken);
      HealthyLeave(active, broken, id);
      RemoveClient(id);
      SessionLeavesHealthy(old(clients), broken, id, stream);
      AppendedTrans(registered, afterRelay, log, joined, active - {id}, broken);
      ReachedAllKeeps(afterJoin, afterRelay, |old(log)|, active);
      ReachedAllKeeps(afterRelay, log, |old(log)|, active);
      ReachedAllWiden(log, |old(log)|, |afterJoin|, active);
      ReachedAllWiden(log, |old(log)|, |afterRelay|, clients);
      ReachedAllShrink(log, |old(log)|, active, clients);
      JoinPhaseKeeps(afterJoin, afterRelay, log, |old(log)| + 1, JoinNotice(id),
                     joined.Keys - active.Keys, joined.Keys - clients.Keys);
      RoundsKeep(afterRelay, log, marks, active, requests);
      LeavePhase(afterRelay, log, joined, active, clients, id);
      SessionSends(log, |old(log)| + 1, marks, active, requests, JoinNotice(id), joined.Keys - clients.Keys);
      AppendedTrans(afterJoin, afterRelay, log, active, active - {id}, broken);
    }

    /**
     * The body of a session: relay every request the stream delivers, in
     * order, under the request's own id. With every registered stream
     * working nobody is evicted, and each request reaches every registered
     * client except its sender.
     */
    method Relay(requests: seq<Message>) returns (ghost marks: seq<nat>)
      requires Valid() && Healthy(clients, broken)
      modifies this
      ensures Valid() && idCounter == old(idCounter)
      ensures clients == old(clients)
      ensures Appended(old(log), log, old(clients), broken)
      ensures forall i :: 0 <= i < |requests| ==> ReachedAll(log, |old(log)|, clients, requests[i])
      ensures |marks| == |requests| + 1 && marks[0] == |old(log)| && marks[|requests|] == |log|
      ensures forall i :: 0 <= i < |requests| ==> Round(log, marks[i], marks[i + 1], clients, requests[i])
    {
      marks := [|log|];
      var msg: Message;
      for i := 0 to |requests|
        invariant Valid() && idCounter == old(idCounter)
        invariant clients == old(clients)
        invariant Appended(old(log), log, old(clients), broken)
        invariant forall r :: 0 <= r < i ==> ReachedAll(log, |old(log)|, clients, requests[r])
        invariant |marks| == i + 1 && marks[0] == |old(log)| && marks[i] == |log|
        invariant forall r :: 0 <= r < i ==> Round(log, marks[r], marks[r + 1], clients, requests[..i][r])
      {
        var req := requests[i];
        msg := Message(req.id, req.text, req.clock);
        ghost var before := log;
        NoneBrokenNoneEvicted(clients, broken, msg.id);
        BroadcastMessage(msg);
        AppendedTrans(old(log), before, log, old(clients), old(clients), broken);
        ReachedAllKeeps(before, log, |old(log)|, clients);
        HeardWiden(log, |old(log)|, |before|);
        assert ReachedAll(log, |old(log)|, clients, requests[i]);
        HealthyBroadcastRound(before, log, clients, broken, msg);
        RoundsKeep(before, log, marks, clients, requests[..i]);
        marks := marks + [|log|];
      }
    }

    /**
     * The opening of a session: register the stream under a new id and
     * broadcast the join notice, which comes from id 0 and so reaches every
     * registered client, the newcomer included.
     */
    method Join(stream: Stream) returns (id: int)
      requires Valid()
      modifies this
      ensures Valid()
      ensures idCounter == old(idCounter) + 1 && id == idCounter && id !in old(clients)
      ensures clients == old(clients)[id := stream] - BrokenIds(old(clients)[id := stream], broken)
      ensures |log| > |old(log)| && log[|old(log)|] == Direct(id, IdNotice(id), stream !in broken)
      ensures Appended(old(log) + [log[|old(log)|]], log, old(clients)[id := stream], broken)
      ensures ReachedAll(log, |old(log)|, clients, JoinNotice(id))
      ensures forall j :: j in old(clients)[id := stream] && j !in clients ==>
        ReachedAll(log, |old(log)|, clients, LeaveNotice(j))
      ensures forall i :: |old(log)| < i < |log| ==>
        log[i].msg == JoinNotice(id) || IsDeparture(log[i].msg, old(clients)[id := stream].Keys - clients.Keys)
      ensures NoRepeats(log, |old(log)| + 1)
    {
      id := AddClient(stream);
      ghost var joined, registered := clients, log;
      var msg := JoinNotice(id);
      assert msg.id !in joined;
      BroadcastMessage(msg);
      EvictedAbsentSender(joined, broken, msg.id);
      EvictionSparesHealthy(joined, broken, msg.id);
      HeardWiden(log, |old(log)|, |registered|);
    }

    /**
     * Removes a registered client and announces its departure; an id that
     * is not registered is left alone.
     */
    method RemoveClient(id: int)
      requires Valid()
      modifies this
      ensures Valid() && idCounter == old(idCounter)
      ensures id !in old(clients) ==> clients == old(clients) && log == old(log)
      ensures id in old(clients) ==>
        clients == (old(clients) - {id}) - BrokenIds(old(clients) - {id}, broken)
      ensures Appended(old(log), log, old(clients) - {id}, broken)
      ensures id in old(clients) ==>
        forall k :: k in clients ==> Heard(log, |old(log)|, k, LeaveNotice(id))
      ensures forall j, k :: j in old(clients) && j !in clients && k in clients ==>
        Heard(log, |old(log)|, k, LeaveNotice(j))
      ensures forall i :: |old(log)| <= i < |log| ==> IsDeparture(log[i].msg, old(clients).Keys - clients.Keys)
      ensures NoRepeats(log, |old(log)|)
      decreases |clients|, 0
    {
      if id in clients {
        RemoveShrinks(clients, id);
        clients := clients - {id};
        ghost var rest := clients;
        BroadcastMessage(LeaveNotice(id));
        EvictedAbsentSender(rest, broken, id);
        EvictionSparesHealthy(rest, broken, id);
        forall i | |old(log)| <= i < |log|
          ensures IsDeparture(log[i].msg, old(clients).Keys - clients.Keys)
        {
          if log[i].msg != LeaveNotice(id) {
            assert log[i].msg.id in Evicted(rest, broken, id);
          }
        }
      }
    }

    /**
     * Sends `msg` to every registered client except the one whose id it
     * carries, visiting the ids registered when it starts in any order and
     * skipping those removed meanwhile; a failed send removes its target.
     */
    method BroadcastMessage(msg: Message)
      requires Valid()
      modifies this
      ensures Valid() && idCounter == old(idCounter)
      ensures clients == old(clients) - Evicted(old(clients), broken, msg.id)
      ensures Appended(old(log), log, old(clients), broken)
      ensures forall k :: k in old(clients) && k != msg.id && old(clients)[k] !in broken ==>
        Heard(log, |old(log)|, k, msg)
      ensures forall j, k :: j in old(clients) && j !in clients && k in clients ==>
        Heard(log, |old(log)|, k, LeaveNotice(j))
      ensures forall i :: |old(log)| <= i < |log| ==>
        log[i].msg == msg || IsDeparture(log[i].msg, Evicted(old(clients), broken, msg.id))
      ensures !IsDeparture(msg, BrokenIds(old(clients), broken)) ==> NoRepeats(log, |old(log)|)
      decreases |clients|, 2
    {
      ghost var start := clients;
      ghost var failed, culprit := false, msg.id;
      var pending := clients.Keys;
      SweepInit(log, start, msg, broken);
      while pending != {}
        invariant Valid() && idCounter == old(idCounter)
        invariant Sweep(old(log), log, start, clients, pending, failed, culprit, msg, broken)
        decreases pending
      {
        NonEmptyHasMember(pending);
        var id :| id in pending;
        if id in clients && id != msg.id {
          ghost var before, registered := log, clients;
          MinusNoLarger(start, BrokenIds(start, broken));
          SendOrRemove(id, msg);
          SweepStep(old(log), before, log, start, registered, clients, pending, id, failed, culprit, msg, broken);
          if registered[id] in broken {
            failed, culprit := true, id;
          }
        } else {
          SweepSkip(old(log), log, start, clients, pending, id, failed, culprit, msg, broken);
        }
        pending := pending - {id};
      }
      SweepDone(old(log), log, start, clients, failed, culprit, msg, broken);
    }

    /**
     * One visit of the broadcast loop to a registered client other than the
     * sender: send `msg` to its stream and, if the send fails, remove it.
     */
    method SendOrRemove(id: int, msg: Message)
      requires Valid() && id in clients && id != msg.id
      modifies this
      ensures Valid() && idCounter == old(idCounter)
      ensures old(clients)[id] !in broken ==>
        clients == old(clients) && log == old(log) + [Fanout(id, msg, true)]
      ensures old(clients)[id] in broken ==> clients == old(clients) - BrokenIds(old(clients), broken)
      ensures Appended(old(log), log, old(clients), broken)
      ensures forall j, k :: j in old(clients) && j !in clients && k in clients ==>
        Heard(log, |old(log)|, k, LeaveNotice(j))
      ensures |log| > |old(log)| && log[|old(log)|] == Fanout(id, msg, old(clients)[id] !in broken)
      ensures forall i :: |old(log)| < i < |log| ==> IsDeparture(log[i].msg, old(clients).Keys - clients.Keys)
      ensures NoRepeats(log, |old(log)| + 1)
      decreases |clients|, 1
    {
      var stream := clients[id];
      var ok := stream !in broken;
      log := log + [Fanout(id, msg, ok)];
      if !ok {
        ghost var mid := log;
        RemoveClient(id);
        RemoveThenEvict(old(clients), broken, id);
        AppendedTrans(old(log), mid, log, old(clients), old(clients) - {id}, broken);
        HeardWiden(log, |old(log)|, |mid|);
        assert log[|old(log)|] == log[..|mid|][|old(log)|];
      }
    }
  }
}

=== FILE: wire.dfy ===
/**
 * The message shape that travels on the chat stream in both directions
 * (the request a client sends and the response the server fans out carry
 * the same three fields), and the decimal rendering of ids used in the
 * server's notices.
 */
module Wire {
  import opened Clocks

  /** Sender id (0 for a notice from the server), text, and a vector clock. */
  datatype Message = Message(id: int, text: string, clock: Clock)

  /** The decimal digit for `d`. */
  function Digit(d: int): (c: char)
    requires 0 <= d < 10
    ensures '0' <= c <= '9'
    ensures c as int - '0' as int == d
  {
    "0123456789"[d]
  }

  /** The value of a string of decimal digits. */
  function DigitsValue(s: string): nat
    requires forall i :: 0 <= i < |s| ==> '0' <= s[i] <= '9'
  {
    if s == [] then 0 else 10 * DigitsValue(s[..|s| - 1]) + (s[|s| - 1] as int - '0' as int)
  }

  /** Decimal digits of `n`, most significant first, no leading zeros. */
  function NatToString(n: nat): (s: string)
    ensures s != []
    ensures forall i :: 0 <= i < |s| ==> '0' <= s[i] <= '9'
    ensures DigitsValue(s) == n
    ensures |s| > 1 ==> s[0] != '0'
    decreases n
  {
    if n < 10 then [Digit(n)] else NatToString(n / 10) + [Digit(n % 10)]
  }

  /** Decimal rendering of an integer, with a leading '-' for negatives. */
  function Itoa(n: int): (s: string)
    ensures s != []
    ensures n < 0 <==> s[0] == '-'
    ensures n >= 0 ==> (forall i :: 0 <= i < |s| ==> '0' <= s[i] <= '9') && DigitsValue(s) == n
    ensures n < 0 ==> |s| > 1 && (forall i :: 1 <= i < |s| ==> '0' <= s[i] <= '9') && DigitsValue(s[1..]) == -n
  {
    if n < 0 then "-" + NatToString(-n) else NatToString(n)
  }

  /** Distinct ids are rendered as distinct strings. */
  lemma ItoaInjective(a: int, b: int)
    requires Itoa(a) == Itoa(b)
    ensures a == b
  {
    if a < 0 {
      assert Itoa(a)[1..] == Itoa(b)[1..];
    }
  }
}
